=== FILE: README.md ===
# Welcome greetings of phoenix-starter, in Dafny

The Welcome module of the phoenix-starter PHP application greets people by name.
It has two use cases.

- **CreateGreeting** takes a validated input: a required name of 1..100 characters
  and an optional message of at most 500. Its handler reads the `welcome`
  configuration section. It fails with `Invalid name: Name must not exceed <n>
  characters` when the name is longer than `max_name_length`. Otherwise it
  optionally title-cases the name (`ucwords(strtolower(...))`) and builds
  `<prefix>, <name>! <message>`. When the message is PHP-falsy (null, `""`, `"0"`),
  the fixed sentence `Welcome to Phoenix Framework.` takes the message's place.
- **GetGreeting** takes a validated name of 1..100 characters. It always builds
  `<prefix>, <name>! Welcome to Phoenix Framework.`, applying the same optional
  capitalisation and no length limit of its own.

The `welcome` section has three keys:

| key | type | default | bound |
|---|---|---|---|
| `greeting_prefix` | string | `Hello` | none |
| `max_name_length` | int | `100` | 1..500 |
| `capitalize_names` | bool | `true` | none |

Each use case result is either a success carrying a payload or a failure carrying a
`Throwable`. Asking a failure for its payload throws; asking a success for its error is modelled as a throw too.

The model is pure. Validation, configuration resolution, the two handlers and the
result accessors are total functions. Each PHP throw becomes a `Result` or `Option`
failure.

- Strings are `seq<char>`, with one character per byte.
- `sprintf` works on a parsed template (its literal runs and `%s` directives).
- Integer interpolation into the failure message is written out in decimal, sign included.

Modules, one per file:

| module | role |
|---|---|
| `Wrappers` | Option and Result |
| `PhpStrings` | `strtolower`, `ucwords` |
| `Decimal` | integer interpolation |
| `Sprintf` | the `%s` formatter |
| `Validation` | the declared rule chains of an input schema |
| `UseCaseResult` | the success/failure shape |
| `CreateGreetingResult`, `GetGreetingResult` | the two result types |
| `CreateGreetingInput`, `GetGreetingInput` | the two inputs |
| `WelcomeConfig` | the configuration schema |
| `Greeting` | what both handlers share |
| `CreateGreetingHandler`, `GetGreetingHandler` | the two handlers |

## Model

| member | source | states |
|---|---|---|
| PhpStrings.ToLower | src/App/Modules/Welcome/UseCases/CreateGreeting/CreateGreetingHandler.php:73 | exactly the ASCII capitals change, each into the small letter at the same place in the alphabet; no capital remains |
| PhpStrings.ToUpper | src/App/Modules/Welcome/UseCases/CreateGreeting/CreateGreetingHandler.php:73 | exactly the ASCII small letters change, each into the capital at the same place in the alphabet; no small letter remains |
| PhpStrings.CaseRoundTrip | src/App/Modules/Welcome/UseCases/CreateGreeting/CreateGreetingHandler.php:73 | the alphabet tables `A`..`Z` and `a`..`z` hold exactly the ASCII letters; lower-casing takes the k-th capital to the k-th small letter and upper-casing the reverse, so the two maps undo each other on letters |
| PhpStrings.StrToLower | src/App/Modules/Welcome/UseCases/CreateGreeting/CreateGreetingHandler.php:73 | `strtolower`: same length, each character lowered |
| PhpStrings.UcWordsFrom | src/App/Modules/Welcome/UseCases/CreateGreeting/CreateGreetingHandler.php:73 | same length; a character after a delimiter is upper-cased, the first one only when a word is pending, and every other character is kept |
| PhpStrings.UcWords | src/App/Modules/Welcome/UseCases/CreateGreeting/CreateGreetingHandler.php:73 | `ucwords`: same length; the first character of each word is upper-cased and the rest are unchanged |
| PhpStrings.TitleCaseShape | src/App/Modules/Welcome/UseCases/CreateGreeting/CreateGreetingHandler.php:72-74 | capitalising keeps length and delimiters; word starts become upper case and the other letters lower case |
| PhpStrings.TitleCaseIdempotent | src/App/Modules/Welcome/UseCases/GetGreeting/GetGreetingHandler.php:36-38 | capitalising an already capitalised name changes nothing |
| PhpStrings.TitleCaseJohnDoe | src/App/Modules/Welcome/UseCases/CreateGreeting/CreateGreetingHandler.php:73 | `john doe` capitalises to `John Doe` |
| Decimal.NatToDecimal | src/App/Modules/Welcome/UseCases/CreateGreeting/CreateGreetingHandler.php:67 | a natural number prints as a non-empty run of digits with no leading zero |
| Decimal.IntToDecimal | src/App/Modules/Welcome/UseCases/CreateGreeting/CreateGreetingHandler.php:67 | an int prints as digits only exactly when it is non-negative, and with a leading `-` exactly when it is negative; the digits are canonical, with no leading zero except for 0 itself |
| Decimal.NatToDecimalRoundTrip | src/App/Modules/Welcome/UseCases/CreateGreeting/CreateGreetingHandler.php:67 | reading the printed digits back gives the number |
| Decimal.IntToDecimalRoundTrip | src/App/Modules/Welcome/UseCases/CreateGreeting/CreateGreetingHandler.php:67 | parsing the printed int, sign included, gives the int back |
| Sprintf.Render | src/App/Modules/Welcome/UseCases/CreateGreeting/CreateGreetingHandler.php:78-82 | `sprintf` yields a string exactly when there are at least as many arguments as `%s` directives, and throws otherwise |
| Sprintf.RenderConcat | src/App/Modules/Welcome/UseCases/CreateGreeting/CreateGreetingHandler.php:78-82 | a template split in two renders as the first part with its share of the arguments, followed by the second part with the remaining ones |
| Validation.FirstViolation | src/App/Modules/Welcome/UseCases/CreateGreeting/CreateGreetingInput.php:41-56 | one field's chain fails exactly when a rule is broken, and reports the first broken rule among presence, type, minimum, maximum (the chain is declared type first, but a missing field cannot also have the wrong type, so the order of those two makes no difference) |
| Validation.Validate | src/App/Modules/Welcome/UseCases/CreateGreeting/CreateGreetingInput.php:41-56 | there are no errors exactly when every field satisfies its chain, and at most one error per declared field |
| Validation.ValidateSound | src/App/Modules/Welcome/UseCases/CreateGreeting/CreateGreetingInput.php:41-42 | every reported error names a declared field and is that field's first violation |
| Validation.ValidateComplete | src/App/Modules/Welcome/UseCases/CreateGreeting/CreateGreetingInput.php:41-42 | every field that breaks its chain is reported |
| Validation.ValidateOneErrorPerField | src/App/Modules/Welcome/UseCases/CreateGreeting/CreateGreetingInput.php:41-42 | validation stops at the first failure of each field, so no field is reported twice |
| UseCaseResult.Outcome.GetPayload | src/App/Modules/Welcome/UseCases/CreateGreeting/CreateGreetingResult.php:14-19 | the stored payload of a success; on a failure it throws the RuntimeException |
| UseCaseResult.Outcome.GetError | src/App/Modules/Welcome/UseCases/CreateGreeting/CreateGreetingResult.php:14-19 | the stored error of a failure, unchanged; on a success it throws (assumed, see "Left out") |
| UseCaseResult.ExactlyOneSide | src/App/Modules/Welcome/UseCases/CreateGreeting/CreateGreetingResult.php:14-19 | every result is exactly one of success and failure, and exactly one accessor returns |
| CreateGreetingResult.GetName | src/App/Modules/Welcome/UseCases/CreateGreeting/CreateGreetingResult.php:73-76 | returns the greeted name of a success and throws on a failure |
| CreateGreetingResult.GetGreeting | src/App/Modules/Welcome/UseCases/CreateGreeting/CreateGreetingResult.php:84-87 | returns the greeting of a success and throws on a failure |
| CreateGreetingResult.Success | src/App/Modules/Welcome/UseCases/CreateGreeting/CreateGreetingResult.php:37-43 | a success whose `getName` and `getGreeting` give back the two arguments |
| CreateGreetingResult.InvalidName | src/App/Modules/Welcome/UseCases/CreateGreeting/CreateGreetingResult.php:51-54 | an InvalidArgumentException failure whose message is `Invalid name: ` followed by the reason; the payload accessors throw |
| CreateGreetingResult.Failed | src/App/Modules/Welcome/UseCases/CreateGreeting/CreateGreetingResult.php:62-65 | a failure carrying the given error unchanged |
| GetGreetingResult.GetGreeting | src/App/Modules/Welcome/UseCases/GetGreeting/GetGreetingResult.php:31-34 | returns the greeting of a success and throws on a failure |
| GetGreetingResult.Success | src/App/Modules/Welcome/UseCases/GetGreeting/GetGreetingResult.php:16-19 | a success whose `getGreeting` gives back the argument |
| GetGreetingResult.NotFound | src/App/Modules/Welcome/UseCases/GetGreeting/GetGreetingResult.php:21-24 | an InvalidArgumentException failure whose message is `No greeting found for: ` followed by the name |
| GetGreetingResult.Failed | src/App/Modules/Welcome/UseCases/GetGreeting/GetGreetingResult.php:26-29 | a failure carrying the given error unchanged |
| CreateGreetingInput.InputSchema | src/App/Modules/Welcome/UseCases/CreateGreeting/CreateGreetingInput.php:46-57 | the schema declares `name` and `message`, each once |
| CreateGreetingInput.Create | src/App/Modules/Welcome/UseCases/CreateGreeting/CreateGreetingInput.php:46-87 | `create` is valid exactly on a 1..100-character string name with no message or a string message of at most 500; the getters return the supplied values and a missing message is null; otherwise there are 1..2 errors, at most one per field, all about `name` or `message`; each error is its field's first broken rule, and every field whose rules fail is reported |
| CreateGreetingInput.CreateOrFail | src/App/Modules/Welcome/UseCases/CreateGreeting/CreateGreetingInput.php:16-29 | `createOrFail` returns exactly when the data is acceptable, and then returns what `create` would; otherwise it throws `create`'s errors |
| CreateGreetingInput.NameAndMessageKept | tests/Unit/Modules/Welcome/CreateGreetingInputTest.php:18-29 | `John Doe` with `Have a great day!` is valid, and both values come back |
| CreateGreetingInput.NameWithoutMessageValid | tests/Unit/Modules/Welcome/CreateGreetingInputTest.php:31-39 | any valid name without a message is accepted with a null message, by `create` and by `createOrFail` |
| CreateGreetingInput.EmptyNameInvalid | tests/Unit/Modules/Welcome/CreateGreetingInputTest.php:41-49 | the empty name is refused with the single error "too short" |
| CreateGreetingInput.MissingNameInvalid | tests/Unit/Modules/Welcome/CreateGreetingInputTest.php:51-73 | empty data is refused with "name missing", and `createOrFail` throws |
| CreateGreetingInput.LongNameInvalid | tests/Unit/Modules/Welcome/CreateGreetingInputTest.php:59-66 | a name over 100 characters is refused with "too long", whatever else is supplied |
| CreateGreetingInput.MessageBound | src/App/Modules/Welcome/UseCases/CreateGreeting/CreateGreetingInput.php:53-55 | the message is optional; a valid name with a message over 500 characters gets exactly the message's "too long" error |
| GetGreetingInput.InputSchema | src/App/Modules/Welcome/UseCases/GetGreeting/GetGreetingInput.php:20-28 | the schema declares `name` once |
| GetGreetingInput.Create | src/App/Modules/Welcome/UseCases/GetGreeting/GetGreetingInput.php:20-38 | valid exactly on a 1..100-character string name, which is kept; otherwise exactly one error, the first rule `name` breaks |
| GetGreetingInput.CreateOrFail | src/App/Http/Controller/WelcomeController.php:105 | `createOrFail` returns exactly when the data is acceptable, agreeing with `create`; otherwise it throws the single error |
| GetGreetingInput.NameRule | src/App/Modules/Welcome/UseCases/GetGreeting/GetGreetingInput.php:20-28 | a lone name is accepted exactly when it has 1..100 characters and is then kept; empty, over-long and missing names throw with "too short", "too long" and "missing" |
| GetGreetingInput.GuestAccepted | src/App/Http/Controller/WelcomeController.php:102-105 | the fallback name `Guest` passes `createOrFail` |
| WelcomeConfig.Resolve | src/App/Modules/Welcome/WelcomeConfigSchemaProvider.php:34-46 | a section resolves exactly when it has no undeclared key, every present key has its type and `max_name_length` lies in 1..500; the result then keeps each supplied value, uses the default for each missing key and satisfies the bound; otherwise 1..4 errors: each wrong-typed declared key gets a wrong-type error naming it, an out-of-range `max_name_length` gets an out-of-range error with its value, the undeclared keys get one error listing exactly them, and no error is reported for a key that did not break its rule |
| WelcomeConfig.UnknownKeyRefused | src/App/Modules/Welcome/WelcomeConfigSchemaProvider.php:35 | any undeclared key makes the section fail, and the report names it |
| WelcomeConfig.DefaultsAndBaseAgree | config/.config.php:63-72 | the defaults satisfy the bound; an empty section and the base configuration both resolve to `Hello`, `100`, `true` |
| WelcomeConfig.MaxNameLengthBound | src/App/Modules/Welcome/WelcomeConfigSchemaProvider.php:40 | a `max_name_length` outside 1..500 is refused, naming the value |
| Greeting.DisplayName | src/App/Modules/Welcome/UseCases/CreateGreeting/CreateGreetingHandler.php:72-74 | the name is unchanged when not capitalising; when capitalising, each word starts upper case and continues lower case; the length is kept either way |
| Greeting.CustomGreeting | src/App/Modules/Welcome/UseCases/CreateGreeting/CreateGreetingHandler.php:79 | `'%s, %s! %s'` renders as prefix, `, `, name, `! `, message |
| Greeting.DefaultGreeting | src/App/Modules/Welcome/UseCases/CreateGreeting/CreateGreetingHandler.php:81 | `'%s, %s! Welcome to Phoenix Framework.'` renders as prefix, `, `, name, `! `, the fixed sentence |
| CreateGreetingHandler.Handle | src/App/Modules/Welcome/UseCases/CreateGreeting/CreateGreetingHandler.php:50-95 | fails exactly when the raw name is longer than `max_name_length`, with `invalidName` of the limit reason; otherwise succeeds with the displayed name and prefix, `, `, name, `! `, then the message if truthy or else the fixed sentence |
| CreateGreetingHandler.Compose | src/App/Modules/Welcome/UseCases/CreateGreeting/CreateGreetingHandler.php:77-82 | the greeting ends with the custom message when it is truthy, and with the fixed sentence otherwise |
| CreateGreetingHandler.FailureCitesLimit | src/App/Modules/Welcome/UseCases/CreateGreeting/CreateGreetingHandler.php:65-68 | the failure message is `Invalid name: Name must not exceed <limit> characters`, with the limit in decimal |
| CreateGreetingHandler.CitedLimitReadsBack | src/App/Modules/Welcome/UseCases/CreateGreeting/CreateGreetingHandler.php:67 | the number in the reason is the limit's decimal form and reads back as the limit |
| CreateGreetingHandler.FailureIgnoresCapitalization | src/App/Modules/Welcome/UseCases/CreateGreeting/CreateGreetingHandler.php:62-74 | the length check looks at the raw name: neither the capitalisation flag nor the prefix decides failure |
| CreateGreetingHandler.CapitalizedName | src/App/Modules/Welcome/UseCases/CreateGreeting/CreateGreetingHandler.php:72-74 | when capitalising, the returned name keeps the input's length and delimiters, with no lower-case letter at a word start and no upper-case letter elsewhere |
| CreateGreetingHandler.CapitalizedNameStable | src/App/Modules/Welcome/UseCases/CreateGreeting/CreateGreetingHandler.php:72-74 | capitalising the returned name again changes nothing |
| CreateGreetingHandler.VerbatimName | src/App/Modules/Welcome/UseCases/CreateGreeting/CreateGreetingHandler.php:72-91 | when not capitalising, the returned name is the input's, and the greeting holds it verbatim after the prefix and `, ` |
| CreateGreetingHandler.GreetingEmbedsName | src/App/Modules/Welcome/UseCases/CreateGreeting/CreateGreetingHandler.php:76-91 | a successful greeting opens with the prefix and `, `, followed by exactly the reported name |
| CreateGreetingHandler.FalsyMessages | src/App/Modules/Welcome/UseCases/CreateGreeting/CreateGreetingHandler.php:78-82 | null, `""` and `"0"` all give the same greeting, which ends with the fixed sentence |
| CreateGreetingHandler.SchemaBoundImpliesSuccess | src/App/Modules/Welcome/UseCases/CreateGreeting/CreateGreetingHandler.php:65 | with `max_name_length` at least the schema's 100, no validated name is refused |
| CreateGreetingHandler.TightLimitExample | src/App/Modules/Welcome/UseCases/CreateGreeting/CreateGreetingHandler.php:65-68 | a limit of 5 refuses `Maximilian` with `invalidName("Name must not exceed 5 characters")` |
| GetGreetingHandler.Handle | src/App/Modules/Welcome/UseCases/GetGreeting/GetGreetingHandler.php:24-46 | always succeeds, with the prefix, `, `, the displayed name, `! ` and the fixed sentence |
| GetGreetingHandler.NoLengthLimit | src/App/Modules/Welcome/UseCases/GetGreeting/GetGreetingHandler.php:31-42 | a name over `max_name_length` is still greeted here, while CreateGreeting refuses it |
| GetGreetingHandler.VerbatimName | src/App/Modules/Welcome/UseCases/GetGreeting/GetGreetingHandler.php:34-40 | when not capitalising, the greeting holds the name verbatim after the prefix and `, `, and ends with the fixed sentence |
| GetGreetingHandler.CapitalizedName | src/App/Modules/Welcome/UseCases/GetGreeting/GetGreetingHandler.php:36-38 | the greeted name is stable under capitalisation, has the input's length and differs from it only in letter case |
| GetGreetingHandler.HandlersAgree | src/App/Modules/Welcome/UseCases/GetGreeting/GetGreetingHandler.php:40 | for a name within the limit and no truthy message, CreateGreeting and GetGreeting return the same greeting |

## Left out

- Use-case dispatch is not modelled. That covers the use-case classes, the dispatcher, the service provider, the kernel, the controllers and the routes: the handlers are called directly with their input and the resolved configuration.
- The `catch (\Throwable)` branches of both handlers are not modelled, because nothing in the pure model throws. The `failed(e)` factories they call are modelled.
- The comments about dispatching a command and an event describe code that does not exist, so nothing is persisted or announced.
- The validation engine of the framework is not part of this model. Only the declared rule chains are modelled, in declaration order (string type and presence, then minimum, then maximum), stopping at the first failure per field as the schema's doc comment states.
  - Its error message texts, its type coercions and its handling of null values are left out.
  - A field value is either a string or "not a string".
  - Fields not in the schema are ignored.
- No trimming is modelled: the schemas declare none.
- Multibyte text is not modelled: each character stands for one byte, so `strlen` is the sequence length. `strtolower` and `ucwords` are modelled ASCII-only, as PHP 8 does.
- Sprintf.Render: only the `%s` directive is modelled, the only one the two templates use.
- UseCaseResult.Outcome.GetError: the result base class is not part of this model, so that `getError` throws on a success is assumed, by symmetry with `getPayload` and from the advice in CreateGreetingResult.php:18 to check `isSuccess()`/`isFailure()` before reading the payload or the error.
- The text of the RuntimeException that the payload and error accessors throw is left out. Only which side was asked for is kept.
- Configuration resolution is modelled for the `welcome` section only. The environment overlays (`.config.development.php`, `.config.production.php`) and the merge order of configuration files are left out.
- WelcomeConfig.Resolve: all undeclared keys are reported together in one error, where the configuration library reports one "unexpected item" per key; the message texts are left out.
- `GetGreetingResult::notFound` is modelled although no handler returns it.

=== FILE: create_greeting_handler.dfy ===
/** `CreateGreetingHandler::handle`: checks the raw name against the configured
    maximum, capitalises it when configured, and composes the greeting from the
    custom message or the fixed sentence. */
module CreateGreetingHandler {
  import opened Wrappers
  import PhpStrings
  import Decimal
  import Sprintf
  import Greeting
  import CreateGreetingResult
  import CreateGreetingInput
  import WelcomeConfig

  /** The reason given when the name is longer than `maxLength`. */
  function LimitReason(maxLength: int): string {
    "Name must not exceed " + Decimal.IntToDecimal(maxLength) + " characters"
  }

  /** The use case fails exactly when the raw name is longer than the configured
      maximum, with the limit in the message; otherwise it succeeds with the name
      as greeted and the greeting built from prefix, that name and the message (or
      the fixed sentence when the message is PHP-falsy). */
  function Handle(input: CreateGreetingInput.Input, config: WelcomeConfig.Config): (r: CreateGreetingResult.Result)
    ensures r.IsFailure() <==> |input.name| > config.maxNameLength
    ensures r.IsFailure() ==> r == CreateGreetingResult.InvalidName(LimitReason(config.maxNameLength))
    ensures r.IsSuccess() ==> r.payload.name == Greeting.DisplayName(input.name, config.capitalizeNames)
    ensures r.IsSuccess() ==>
      (r.payload.greeting == config.greetingPrefix + ", " + r.payload.name + "! " +
         (if Greeting.IsTruthy(input.message) then input.message.value else Greeting.DefaultSentence))
  {
    var name := input.name;
    if |name| > config.maxNameLength then
      CreateGreetingResult.InvalidName(LimitReason(config.maxNameLength))
    else
      var shown := Greeting.DisplayName(name, config.capitalizeNames);
      CreateGreetingResult.Success(shown, Compose(config.greetingPrefix, shown, input.message))
  }

  /** The `sprintf` call: the custom template when the message is truthy, the default
      template otherwise. */
  function Compose(prefix: string, name: string, message: Option<string>): (g: string)
    ensures g == prefix + ", " + name + "! " + (if Greeting.IsTruthy(message) then message.value else Greeting.DefaultSentence)
  {
    if Greeting.IsTruthy(message) then
      Greeting.CustomGreeting(prefix, name, message.value);
      Sprintf.Render(Greeting.CustomTemplate, [prefix, name, message.value]).value
    else
      Greeting.DefaultGreeting(prefix, name);
      Sprintf.Render(Greeting.DefaultTemplate, [prefix, name]).value
  }

  /** The failure message is "Invalid name: Name must not exceed <limit> characters",
      with the configured limit in decimal. */
  lemma FailureCitesLimit(input: CreateGreetingInput.Input, config: WelcomeConfig.Config)
    requires |input.name| > config.maxNameLength
    ensures var r := Handle(input, config);
      && r.GetError().Success?
      && r.GetError().value.GetMessage()
         == "Invalid name: Name must not exceed " + Decimal.IntToDecimal(config.maxNameLength) + " characters"
  {
    var d := Decimal.IntToDecimal(config.maxNameLength);
    var r := Handle(input, config);
    assert r.GetError().value.GetMessage() == "Invalid name: " + ("Name must not exceed " + d + " characters");
    assert "Invalid name: " + "Name must not exceed " == "Invalid name: Name must not exceed ";
  }

  /** The limit the failure message cites reads back as the configured maximum. */
  lemma {:induction false} CitedLimitReadsBack(maxLength: int)
    ensures var digits := Decimal.IntToDecimal(maxLength);
      && LimitReason(maxLength) == "Name must not exceed " + digits + " characters"
      && (if digits[0] == '-' then Decimal.AllDigits(digits[1..]) else Decimal.AllDigits(digits))
      && Decimal.ParseInt(digits) == maxLength
  {
    Decimal.IntToDecimalRoundTrip(maxLength);
  }

  /** The length check looks at the raw name, before capitalisation: neither the
      capitalisation flag nor the prefix decides whether the call fails. */
  lemma FailureIgnoresCapitalization(input: CreateGreetingInput.Input, config: WelcomeConfig.Config, capitalize: bool, prefix: string)
    ensures Handle(input, config).IsFailure()
        == Handle(input, config.(capitalizeNames := capitalize, greetingPrefix := prefix)).IsFailure()
  {
  }

  /** Capitalising: the returned name has the input's length, keeps its delimiters,
      and is upper-case at the start of each word and lower-case elsewhere. */
  lemma CapitalizedName(input: CreateGreetingInput.Input, config: WelcomeConfig.Config)
    requires config.capitalizeNames
    requires |input.name| <= config.maxNameLength
    ensures var r := Handle(input, config);
      && r.IsSuccess()
      && |r.payload.name| == |input.name|
      && (forall i :: 0 <= i < |input.name| ==>
            (PhpStrings.IsDelimiter(r.payload.name[i]) <==> PhpStrings.IsDelimiter(input.name[i])))
      && (forall i :: 0 <= i < |input.name| && PhpStrings.StartsWord(input.name, i) ==>
            !PhpStrings.IsAsciiLower(r.payload.name[i]))
      && (forall i :: 0 <= i < |input.name| && !PhpStrings.StartsWord(input.name, i) ==>
            !PhpStrings.IsAsciiUpper(r.payload.name[i]))
  {
  }

  /** Capitalising the returned name again changes nothing. */
  lemma CapitalizedNameStable(input: CreateGreetingInput.Input, config: WelcomeConfig.Config)
    requires config.capitalizeNames
    requires |input.name| <= config.maxNameLength
    ensures var r := Handle(input, config);
      r.IsSuccess() && PhpStrings.TitleCase(r.payload.name) == r.payload.name
  {
    PhpStrings.TitleCaseIdempotent(input.name);
  }

  /** Not capitalising: the returned name is the input name, and the greeting holds it
      verbatim right after the prefix and ", ". */
  lemma VerbatimName(input: CreateGreetingInput.Input, config: WelcomeConfig.Config)
    requires !config.capitalizeNames
    requires |input.name| <= config.maxNameLength
    ensures var r := Handle(input, config);
      && r.IsSuccess()
      && r.payload.name == input.name
      && var start := |config.greetingPrefix| + 2;
         r.payload.greeting[start..start + |input.name|] == input.name
  {
    var r := Handle(input, config);
    var start := |config.greetingPrefix| + 2;
    var m := if Greeting.IsTruthy(input.message) then input.message.value else Greeting.DefaultSentence;
    assert r.payload.greeting == (config.greetingPrefix + ", ") + input.name + ("! " + m);
  }

  /** On success the greeting opens with the prefix and ", ", followed by exactly the
      name the result reports. */
  lemma GreetingEmbedsName(input: CreateGreetingInput.Input, config: WelcomeConfig.Config)
    requires |input.name| <= config.maxNameLength
    ensures var r := Handle(input, config);
      && r.IsSuccess()
      && var start := |config.greetingPrefix| + 2;
      && r.payload.greeting[..start] == config.greetingPrefix + ", "
      && r.payload.greeting[start..start + |r.payload.name|] == r.payload.name
  {
    var r := Handle(input, config);
    var m := if Greeting.IsTruthy(input.message) then input.message.value else Greeting.DefaultSentence;
    assert r.payload.greeting == (config.greetingPrefix + ", ") + r.payload.name + ("! " + m);
  }

  /** Null, "" and "0" all fall back to the fixed sentence. */
  lemma FalsyMessages(name: string, config: WelcomeConfig.Config)
    requires |name| <= config.maxNameLength
    ensures var g := CreateGreetingResult.GetGreeting(Handle(CreateGreetingInput.Input(name, None), config));
      && CreateGreetingResult.GetGreeting(Handle(CreateGreetingInput.Input(name, Some("")), config)) == g
      && CreateGreetingResult.GetGreeting(Handle(CreateGreetingInput.Input(name, Some("0")), config)) == g
      && g.Success?
      && g.value == config.greetingPrefix + ", " + Greeting.DisplayName(name, config.capitalizeNames) + "! " + Greeting.DefaultSentence
  {
  }

  /** Whatever the validated input passed, a configured maximum of at least the
      schema's 100 never rejects it: only a tighter configuration can. */
  lemma SchemaBoundImpliesSuccess(data: CreateGreetingInput.Input, config: WelcomeConfig.Config)
    requires |data.name| <= CreateGreetingInput.NameMaxLength <= config.maxNameLength
    ensures Handle(data, config).IsSuccess()
  {
  }

  /** A configured maximum of 5 rejects a ten-character name, citing 5. */
  lemma TightLimitExample()
    ensures var r := Handle(CreateGreetingInput.Input("Maximilian", None), WelcomeConfig.Config("Hello", 5, true));
      r.IsFailure() && r == CreateGreetingResult.InvalidName("Name must not exceed 5 characters")
  {
    assert |"Maximilian"| == 10;
    assert Decimal.IntToDecimal(5) == "5";
    assert "Name must not exceed " + "5" + " characters" == "Name must not exceed 5 characters";
  }
}

=== FILE: create_greeting_input.dfy ===
/** The validated input of the CreateGreeting use case: a required name of 1 to 100
    characters and an optional message of at most 500. */
module CreateGreetingInput {
  import opened Wrappers
  import opened Validation

  const NameField: string := "name"
  const MessageField: string := "message"
  const NameMinLength: nat := 1
  const NameMaxLength: nat := 100
  const MessageMaxLength: nat := 500

  /** A hydrated input; `name` and `message` are `getName()` and `getMessage()`. */
  datatype Input = Input(name: string, message: Option<string>)

  /** The declared schema, in declaration order. */
  function InputSchema(): (s: Schema)
    ensures DistinctFields(s)
  {
    [ FieldRule(NameField, Required, NameMinLength, NameMaxLength),
      FieldRule(MessageField, Optional, 0, MessageMaxLength) ]
  }

  /** The data the schema accepts, stated directly: a string name of 1..100 characters,
      and a message that is either absent or a string of at most 500 characters. */
  predicate Acceptable(data: FormData) {
    && NameField in data && data[NameField].Text?
    && NameMinLength <= |data[NameField].text| <= NameMaxLength
    && (MessageField in data ==> data[MessageField].Text? && |data[MessageField].text| <= MessageMaxLength)
  }

  /** `hydrate()`: the name as validated, and the message or null. */
  function Hydrate(normalized: map<string, string>): Input
    requires NameField in normalized
  {
    Input(normalized[NameField], if MessageField in normalized then Some(normalized[MessageField]) else None)
  }

  /** Lenient `create()`: valid exactly on acceptable data, with the getters returning
      the supplied values; otherwise one to two errors, at most one per field, each the
      first broken rule of its field, and every field whose rules fail is reported. */
  function Create(data: FormData): (r: InputResult<Input>)
    ensures r.Valid? <==> Acceptable(data)
    ensures r.Valid? ==> r.input.name == data[NameField].text
    ensures r.Valid? ==> r.input.message == (if MessageField in data then Some(data[MessageField].text) else None)
    ensures r.Invalid? ==> 1 <= |r.errors| <= 2 && NoFieldTwice(r.errors)
    ensures r.Invalid? ==> forall e :: e in r.errors ==> e.field == NameField || e.field == MessageField
    ensures r.Invalid? ==> forall e :: e in r.errors ==>
      Some(e.violation) == FirstViolation(if e.field == NameField then InputSchema()[0] else InputSchema()[1], data)
    ensures !Satisfies(InputSchema()[0], data) ==> r.Invalid? && exists e :: e in r.errors && e.field == NameField
    ensures !Satisfies(InputSchema()[1], data) ==> r.Invalid? && exists e :: e in r.errors && e.field == MessageField
  {
    var schema := InputSchema();
    var errors := Validate(schema, data);
    assert SatisfiesAll(schema, data) <==> Satisfies(schema[0], data) && Satisfies(schema[1], data);
    ValidateOneErrorPerField(schema, data);
    forall e | e in errors
      ensures e.field == NameField || e.field == MessageField
      ensures Some(e.violation) == FirstViolation(if e.field == NameField then schema[0] else schema[1], data)
    {
      ValidateSound(schema, data, e);
    }
    forall k | 0 <= k < |schema| && !Satisfies(schema[k], data)
      ensures exists e :: e in errors && e.field == schema[k].field
    {
      ValidateComplete(schema, data, k);
    }
    if errors == [] then
      Valid(Hydrate(Normalized(schema, data)))
    else
      Invalid(errors)
  }

  /** Strict `createOrFail()`: returns the same input `create()` would, and throws an
      input-validation error carrying the same errors otherwise. */
  function CreateOrFail(data: FormData): (r: Result<Input, InputValidationException>)
    ensures r.Success? <==> Acceptable(data)
    ensures r.Success? ==> Create(data) == Valid(r.value)
    ensures r.Failure? ==> Create(data) == Invalid(r.error.errors) && |r.error.errors| >= 1
  {
    match Create(data)
    case Valid(i) => Success(i)
    case Invalid(errors) => Failure(InputValidationException(errors))
  }

  /** A name with a message: both come back unchanged. */
  lemma NameAndMessageKept()
    ensures Create(map[NameField := Text("John Doe"), MessageField := Text("Have a great day!")])
         == Valid(Input("John Doe", Some("Have a great day!")))
  {
  }

  /** A name of 1..100 characters without a message is valid, the message is null,
      and `createOrFail` returns that same input. */
  lemma NameWithoutMessageValid(name: string)
    requires NameMinLength <= |name| <= NameMaxLength
    ensures Create(map[NameField := Text(name)]) == Valid(Input(name, None))
    ensures CreateOrFail(map[NameField := Text(name)]) == Success(Input(name, None))
  {
  }

  /** The empty name is rejected, with a non-empty error list. */
  lemma EmptyNameInvalid()
    ensures Create(map[NameField := Text("")]).Invalid?
    ensures Create(map[NameField := Text("")]).errors == [ValidationError(NameField, TooShort(NameMinLength))]
  {
    var data := map[NameField := Text("")];
    assert FirstViolation(InputSchema()[1], data) == None;
  }

  /** A missing name is rejected by `create()`, and `createOrFail([])` throws. */
  lemma MissingNameInvalid()
    ensures Create(map[]) == Invalid([ValidationError(NameField, Missing)])
    ensures CreateOrFail(map[]) == Failure(InputValidationException([ValidationError(NameField, Missing)]))
  {
    var data: FormData := map[];
    assert FirstViolation(InputSchema()[1], data) == None;
  }

  /** A name over 100 characters is rejected, whatever the message. */
  lemma LongNameInvalid(data: FormData)
    requires NameField in data && data[NameField].Text? && |data[NameField].text| > NameMaxLength
    ensures Create(data).Invalid?
    ensures ValidationError(NameField, TooLong(NameMaxLength)) in Create(data).errors
  {
    assert FirstViolation(InputSchema()[0], data) == Some(TooLong(NameMaxLength));
  }

  /** A message over 500 characters is rejected; leaving the message out is not an error. */
  lemma MessageBound(data: FormData)
    requires NameField in data && data[NameField].Text?
    requires NameMinLength <= |data[NameField].text| <= NameMaxLength
    ensures MessageField !in data ==> Create(data).Valid?
    ensures MessageField in data && data[MessageField].Text? && |data[MessageField].text| > MessageMaxLength ==>
      Create(data) == Invalid([ValidationError(MessageField, TooLong(MessageMaxLength))])
  {
    var schema := InputSchema();
    if MessageField in data && data[MessageField].Text? && |data[MessageField].text| > MessageMaxLength {
      assert FirstViolation(schema[0], data) == None;
      assert FirstViolation(schema[1], data) == Some(TooLong(MessageMaxLength));
      assert schema[1..][1..] == [];
      assert Validate(schema[1..], data) == [ValidationError(MessageField, TooLong(MessageMaxLength))];
    }
  }
}

=== FILE: create_greeting_result.dfy ===
/** The result of the CreateGreeting use case: on success the greeted name and the
    full greeting, on failure the error. */
module CreateGreetingResult {
  import W = Wrappers
  import U = UseCaseResult

  datatype Payload = Payload(name: string, greeting: string)

  type Result = U.Outcome<Payload>

  const InvalidNamePrefix: string := "Invalid name: "

  /** `getName()`: the greeted name; throws on a failure. */
  function GetName(r: Result): (n: W.Result<string, U.RuntimeException>)
    ensures n.Success? <==> r.IsSuccess()
    ensures n.Success? ==> n.value == r.payload.name
  {
    match r.GetPayload()
    case Success(p) => W.Success(p.name)
    case Failure(e) => W.Failure(e)
  }

  /** `getGreeting()`: the full greeting; throws on a failure. */
  function GetGreeting(r: Result): (g: W.Result<string, U.RuntimeException>)
    ensures g.Success? <==> r.IsSuccess()
    ensures g.Success? ==> g.value == r.payload.greeting
  {
    match r.GetPayload()
    case Success(p) => W.Success(p.greeting)
    case Failure(e) => W.Failure(e)
  }

  /** `success(name, greeting)`: the accessors give both arguments back. */
  function Success(name: string, greeting: string): (r: Result)
    ensures r.IsSuccess() && !r.IsFailure()
    ensures GetName(r) == W.Success(name)
    ensures GetGreeting(r) == W.Success(greeting)
  {
    U.Succeeded(Payload(name, greeting))
  }

  /** `invalidName(reason)`: a failure whose message is the reason after "Invalid name: ";
      the payload accessors throw. */
  function InvalidName(reason: string): (r: Result)
    ensures r.IsFailure() && !r.IsSuccess()
    ensures r.GetError().Success? && r.GetError().value.InvalidArgumentException?
    ensures r.GetError().value.GetMessage() == InvalidNamePrefix + reason
    ensures GetName(r).Failure? && GetGreeting(r).Failure?
  {
    U.Failed(U.InvalidArgumentException(InvalidNamePrefix + reason))
  }

  /** `failed(error)`: a failure carrying the error unchanged; the payload accessors throw. */
  function Failed(error: U.Throwable): (r: Result)
    ensures r.IsFailure() && !r.IsSuccess()
    ensures r.GetError() == W.Success(error)
    ensures GetName(r).Failure? && GetGreeting(r).Failure?
  {
    U.Failed(error)
  }
}

=== FILE: decimal.dfy ===
/** How PHP renders an `int` inside a double-quoted string: base-ten digits,
    a leading minus sign for negative values, no leading zeros. */
module Decimal {

  predicate IsDigit(c: char) {
    '0' <= c <= '9'
  }

  predicate AllDigits(s: string) {
    forall i :: 0 <= i < |s| ==> IsDigit(s[i])
  }

  function DigitChar(d: nat): (c: char)
    requires d < 10
    ensures IsDigit(c)
    ensures c as int - '0' as int == d
  {
    ('0' as int + d) as char
  }

  function DigitValue(c: char): (d: nat)
    requires IsDigit(c)
    ensures d < 10
    ensures DigitChar(d) == c
  {
    c as int - '0' as int
  }

  /** The digits of `n`, most significant first. */
  function NatToDecimal(n: nat): (s: string)
    ensures |s| >= 1
    ensures AllDigits(s)
    ensures s[0] == '0' ==> n == 0 && |s| == 1
    decreases n
  {
    if n < 10 then [DigitChar(n)] else NatToDecimal(n / 10) + [DigitChar(n % 10)]
  }

  /** The number a string of digits denotes (the reading direction of `NatToDecimal`). */
  function DecimalValue(s: string): nat
    requires AllDigits(s)
    decreases |s|
  {
    if s == [] then 0 else DecimalValue(s[..|s| - 1]) * 10 + DigitValue(s[|s| - 1])
  }

  /** PHP's string interpolation of an `int`: the canonical decimal, with no leading
      zero except for 0 itself. */
  function IntToDecimal(n: int): (s: string)
    ensures |s| >= 1
    ensures n >= 0 <==> AllDigits(s)
    ensures n < 0 <==> s[0] == '-'
    ensures n >= 0 ==> (s[0] == '0' ==> n == 0 && |s| == 1)
    ensures n < 0 ==> |s| >= 2 && s[1] != '0'
  {
    if n < 0 then
      var s := "-" + NatToDecimal(-n);
      assert !IsDigit(s[0]);
      assert s[1] == NatToDecimal(-n)[0];
      s
    else NatToDecimal(n)
  }

  /** Reads back what `IntToDecimal` writes. */
  function ParseInt(s: string): int
    requires |s| >= 1
    requires if s[0] == '-' then AllDigits(s[1..]) else AllDigits(s)
  {
    if s[0] == '-' then 0 - DecimalValue(s[1..]) as int else DecimalValue(s)
  }

  /** Reading the digits of `n` gives `n` back. */
  lemma {:induction false} NatToDecimalRoundTrip(n: nat)
    ensures DecimalValue(NatToDecimal(n)) == n
    decreases n
  {
    var s := NatToDecimal(n);
    if n >= 10 {
      NatToDecimalRoundTrip(n / 10);
      assert s[..|s| - 1] == NatToDecimal(n / 10);
      assert DigitValue(s[|s| - 1]) == n % 10;
    }
  }

  /** The rendered integer determines the integer: reading it back gives `n`. */
  lemma {:induction false} IntToDecimalRoundTrip(n: int)
    ensures var s := IntToDecimal(n);
      (if s[0] == '-' then AllDigits(s[1..]) else AllDigits(s)) && ParseInt(s) == n
  {
    var s := IntToDecimal(n);
    if n < 0 {
      assert s[1..] == NatToDecimal(-n);
      NatToDecimalRoundTrip(-n);
    } else {
      NatToDecimalRoundTrip(n);
    }
  }
}

=== FILE: get_greeting_handler.dfy ===
/** `GetGreetingHandler::handle`: capitalises the name when configured and greets it
    with the fixed sentence; it imposes no length limit of its own. */
module GetGreetingHandler {
  import opened Wrappers
  import PhpStrings
  import Sprintf
  import Greeting
  import GetGreetingResult
  import GetGreetingInput
  import CreateGreetingInput
  import CreateGreetingResult
  import CreateGreetingHandler
  import WelcomeConfig

  /** The use case always succeeds, and its greeting is the prefix, ", ", the name as
      greeted, "! " and the fixed sentence. */
  function Handle(input: GetGreetingInput.Input, config: WelcomeConfig.Config): (r: GetGreetingResult.Result)
    ensures r.IsSuccess()
    ensures r.payload == config.greetingPrefix + ", " + Greeting.DisplayName(input.name, config.capitalizeNames)
      + "! " + Greeting.DefaultSentence
  {
    var shown := Greeting.DisplayName(input.name, config.capitalizeNames);
    Greeting.DefaultGreeting(config.greetingPrefix, shown);
    GetGreetingResult.Success(Sprintf.Render(Greeting.DefaultTemplate, [config.greetingPrefix, shown]).value)
  }

  /** Unlike CreateGreeting, no name is too long here: even one over the configured
      maximum is greeted. */
  lemma NoLengthLimit(input: GetGreetingInput.Input, config: WelcomeConfig.Config)
    requires |input.name| > config.maxNameLength
    ensures Handle(input, config).IsSuccess()
    ensures CreateGreetingHandler.Handle(CreateGreetingInput.Input(input.name, None), config).IsFailure()
  {
  }

  /** Without capitalisation the greeting holds the name verbatim after the prefix
      and ", ", and ends with the fixed sentence. */
  lemma VerbatimName(input: GetGreetingInput.Input, config: WelcomeConfig.Config)
    requires !config.capitalizeNames
    ensures var g := GetGreetingResult.GetGreeting(Handle(input, config));
      && g.Success?
      && var start := |config.greetingPrefix| + 2;
      && g.value[start..start + |input.name|] == input.name
      && g.value[start + |input.name| + 2..] == Greeting.DefaultSentence
  {
    var g := Handle(input, config).payload;
    assert g == (config.greetingPrefix + ", ") + input.name + ("! " + Greeting.DefaultSentence);
  }

  /** With capitalisation the greeted name is in title case: capitalising it again
      changes nothing, and it differs from the input only in letter case. */
  lemma CapitalizedName(input: GetGreetingInput.Input, config: WelcomeConfig.Config)
    requires config.capitalizeNames
    ensures var shown := Greeting.DisplayName(input.name, config.capitalizeNames);
      && PhpStrings.TitleCase(shown) == shown
      && |shown| == |input.name|
      && (forall i :: 0 <= i < |input.name| ==>
            PhpStrings.ToLower(shown[i]) == PhpStrings.ToLower(input.name[i]))
  {
    PhpStrings.TitleCaseIdempotent(input.name);
  }

  /** The two use cases agree: for a name within the limit and no truthy custom
      message, CreateGreeting returns the same greeting GetGreeting does. */
  lemma {:induction false} HandlersAgree(name: string, message: Option<string>, config: WelcomeConfig.Config)
    requires |name| <= config.maxNameLength
    requires !Greeting.IsTruthy(message)
    ensures CreateGreetingResult.GetGreeting(CreateGreetingHandler.Handle(CreateGreetingInput.Input(name, message), config))
         == GetGreetingResult.GetGreeting(Handle(GetGreetingInput.Input(name), config))
  {
    var created := CreateGreetingHandler.Handle(CreateGreetingInput.Input(name, message), config);
    var fetched := Handle(GetGreetingInput.Input(name), config);
    assert created.payload.greeting == fetched.payload;
  }
}

=== FILE: get_greeting_input.dfy ===
/** The validated input of the GetGreeting use case: a required name of 1 to 100
    characters. */
module GetGreetingInput {
  import opened Wrappers
  import opened Validation

  const NameField: string := "name"
  const NameMinLength: nat := 1
  const NameMaxLength: nat := 100

  /** The name the greeting page falls back to when the route gives none. */
  const GuestName: string := "Guest"

  /** A hydrated input; `name` is `getName()`. */
  datatype Input = Input(name: string)

  function InputSchema(): (s: Schema)
    ensures DistinctFields(s)
  {
    [FieldRule(NameField, Required, NameMinLength, NameMaxLength)]
  }

  /** The data the schema accepts, stated directly: a string name of 1..100 characters. */
  predicate Acceptable(data: FormData) {
    NameField in data && data[NameField].Text? && NameMinLength <= |data[NameField].text| <= NameMaxLength
  }

  /** `hydrate()`: the name as validated. */
  function Hydrate(normalized: map<string, string>): Input
    requires NameField in normalized
  {
    Input(normalized[NameField])
  }

  /** Lenient `create()`: valid exactly on acceptable data, keeping the name unchanged;
      otherwise exactly one error, the first rule the name breaks. */
  function Create(data: FormData): (r: InputResult<Input>)
    ensures r.Valid? <==> Acceptable(data)
    ensures r.Valid? ==> r.input.name == data[NameField].text
    ensures r.Invalid? ==> |r.errors| == 1 && r.errors[0].field == NameField
    ensures r.Invalid? ==> Some(r.errors[0].violation) == FirstViolation(InputSchema()[0], data)
  {
    var schema := InputSchema();
    var errors := Validate(schema, data);
    assert SatisfiesAll(schema, data) <==> Satisfies(schema[0], data);
    if errors == [] then
      Valid(Hydrate(Normalized(schema, data)))
    else
      ValidateSound(schema, data, errors[0]);
      Invalid(errors)
  }

  /** Strict `createOrFail()`, the entry the greeting page uses: returns what `create()`
      would, and throws otherwise. */
  function CreateOrFail(data: FormData): (r: Result<Input, InputValidationException>)
    ensures r.Success? <==> Acceptable(data)
    ensures r.Success? ==> Create(data) == Valid(r.value)
    ensures r.Failure? ==> Create(data) == Invalid(r.error.errors) && |r.error.errors| == 1
  {
    match Create(data)
    case Valid(i) => Success(i)
    case Invalid(errors) => Failure(InputValidationException(errors))
  }

  /** For a name given as the only field: accepted exactly when it has 1..100
      characters, and then kept unchanged; a missing, empty or over-long name throws
      and so never reaches the handler. */
  lemma NameRule(name: string)
    ensures CreateOrFail(map[NameField := Text(name)]).Success?
        <==> NameMinLength <= |name| <= NameMaxLength
    ensures CreateOrFail(map[NameField := Text(name)]).Success? ==>
      CreateOrFail(map[NameField := Text(name)]).value.name == name
    ensures |name| == 0 ==>
      CreateOrFail(map[NameField := Text(name)]) == Failure(InputValidationException([ValidationError(NameField, TooShort(NameMinLength))]))
    ensures |name| > NameMaxLength ==>
      CreateOrFail(map[NameField := Text(name)]) == Failure(InputValidationException([ValidationError(NameField, TooLong(NameMaxLength))]))
    ensures CreateOrFail(map[]) == Failure(InputValidationException([ValidationError(NameField, Missing)]))
  {
    var schema := InputSchema();
    assert schema[1..] == [];
    var data := map[NameField := Text(name)];
    assert Validate(schema, data) == (if FirstViolation(schema[0], data).Some? then [ValidationError(NameField, FirstViolation(schema[0], data).value)] else []);
    var empty: FormData := map[];
    assert Validate(schema, empty) == [ValidationError(NameField, Missing)];
  }

  /** The fallback name "Guest" satisfies the schema. */
  lemma GuestAccepted()
    ensures CreateOrFail(map[NameField := Text(GuestName)]) == Success(Input(GuestName))
  {
  }
}

=== FILE: get_greeting_result.dfy ===
/** The result of the GetGreeting use case: on success only the greeting text. */
module GetGreetingResult {
  import W = Wrappers
  import U = UseCaseResult

  type Result = U.Outcome<string>

  const NotFoundPrefix: string := "No greeting found for: "

  /** `getGreeting()`: the greeting; throws on a failure. */
  function GetGreeting(r: Result): (g: W.Result<string, U.RuntimeException>)
    ensures g.Success? <==> r.IsSuccess()
    ensures g.Success? ==> g.value == r.payload
    ensures g.Failure? ==> g.error == U.PayloadOfFailure
  {
    r.GetPayload()
  }

  /** `success(greeting)`: `getGreeting()` gives the argument back. */
  function Success(greeting: string): (r: Result)
    ensures r.IsSuccess() && !r.IsFailure()
    ensures GetGreeting(r) == W.Success(greeting)
  {
    U.Succeeded(greeting)
  }

  /** `notFound(name)`: a failure whose message is the name after "No greeting found for: ". */
  function NotFound(name: string): (r: Result)
    ensures r.IsFailure() && !r.IsSuccess()
    ensures r.GetError().Success? && r.GetError().value.InvalidArgumentException?
    ensures r.GetError().value.GetMessage() == NotFoundPrefix + name
    ensures GetGreeting(r).Failure?
  {
    U.Failed(U.InvalidArgumentException(NotFoundPrefix + name))
  }

  /** `failed(error)`: a failure carrying the error unchanged. */
  function Failed(error: U.Throwable): (r: Result)
    ensures r.IsFailure() && !r.IsSuccess()
    ensures r.GetError() == W.Success(error)
    ensures GetGreeting(r).Failure?
  {
    U.Failed(error)
  }
}

=== FILE: greeting.dfy ===
/** What the two greeting handlers share: the name transform, PHP's truthiness of
    the optional message, and the two greeting templates. */
module Greeting {
  import opened Wrappers
  import PhpStrings
  import Sprintf

  const DefaultSentence: string := "Welcome to Phoenix Framework."

  /** `'%s, %s! %s'`: prefix, name, custom message. */
  const CustomTemplate: Sprintf.Template :=
    [Sprintf.StringDirective, Sprintf.Literal(", "), Sprintf.StringDirective, Sprintf.Literal("! "), Sprintf.StringDirective]

  /** `'%s, %s! Welcome to Phoenix Framework.'`: prefix, name, then the fixed sentence. */
  const DefaultTemplate: Sprintf.Template :=
    [Sprintf.StringDirective, Sprintf.Literal(", "), Sprintf.StringDirective, Sprintf.Literal("! " + DefaultSentence)]

  /** PHP truthiness of a `?string`: null, "" and "0" are false, every other string true. */
  predicate IsTruthy(message: Option<string>) {
    message.Some? && message.value != "" && message.value != "0"
  }

  /** The name as greeted: `ucwords(strtolower(name))` when capitalising, else unchanged.
      Either way the length is kept; capitalised, each word starts upper-case and
      continues lower-case. */
  function DisplayName(name: string, capitalize: bool): (r: string)
    ensures |r| == |name|
    ensures !capitalize ==> r == name
    ensures capitalize ==> forall i :: 0 <= i < |name| ==>
      (PhpStrings.IsDelimiter(r[i]) <==> PhpStrings.IsDelimiter(name[i]))
    ensures capitalize ==> forall i :: 0 <= i < |name| ==>
      r[i] == (if PhpStrings.StartsWord(name, i) then PhpStrings.ToUpper(name[i]) else PhpStrings.ToLower(name[i]))
  {
    if capitalize then
      PhpStrings.TitleCaseShape(name);
      PhpStrings.TitleCase(name)
    else
      name
  }

  /** The custom template renders as prefix, ", ", name, "! ", message. */
  lemma CustomGreeting(prefix: string, name: string, message: string)
    ensures Sprintf.Render(CustomTemplate, [prefix, name, message]) == Some(prefix + ", " + name + "! " + message)
  {
    var t := CustomTemplate;
    Sprintf.RenderDirective([], message, []);
    assert [Sprintf.StringDirective] + [] == t[4..];
    assert [message] + [] == [message];
    assert Sprintf.Render([], []) == Some([]);
    assert message + [] == message;
    assert Sprintf.Render(t[4..], [message]) == Some(message);
    Sprintf.RenderLiteral("! ", t[4..], [message]);
    assert [Sprintf.Literal("! ")] + t[4..] == t[3..];
    Sprintf.RenderDirective(t[3..], name, [message]);
    assert [Sprintf.StringDirective] + t[3..] == t[2..];
    assert [name] + [message] == [name, message];
    Sprintf.RenderLiteral(", ", t[2..], [name, message]);
    assert [Sprintf.Literal(", ")] + t[2..] == t[1..];
    Sprintf.RenderDirective(t[1..], prefix, [name, message]);
    assert [Sprintf.StringDirective] + t[1..] == t;
    assert [prefix] + [name, message] == [prefix, name, message];
    assert prefix + (", " + (name + ("! " + message))) == prefix + ", " + name + "! " + message;
  }

  /** The default template renders as prefix, ", ", name, "! ", the fixed sentence. */
  lemma DefaultGreeting(prefix: string, name: string)
    ensures Sprintf.Render(DefaultTemplate, [prefix, name]) == Some(prefix + ", " + name + "! " + DefaultSentence)
  {
    var t := DefaultTemplate;
    var tail := "! " + DefaultSentence;
    Sprintf.RenderLiteral(tail, [], []);
    assert [Sprintf.Literal(tail)] + [] == t[3..];
    assert tail + [] == tail;
    assert Sprintf.Render(t[3..], []) == Some(tail);
    Sprintf.RenderDirective(t[3..], name, []);
    assert [Sprintf.StringDirective] + t[3..] == t[2..];
    assert [name] + [] == [name];
    Sprintf.RenderLiteral(", ", t[2..], [name]);
    assert [Sprintf.Literal(", ")] + t[2..] == t[1..];
    Sprintf.RenderDirective(t[1..], prefix, [name]);
    assert [Sprintf.StringDirective] + t[1..] == t;
    assert [prefix] + [name] == [prefix, name];
    assert prefix + (", " + (name + tail)) == prefix + ", " + name + "! " + DefaultSentence;
  }
}

=== FILE: php_strings.dfy ===
/** The PHP string built-ins the greeting handlers call: `strtolower` and `ucwords`,
    both byte-wise and locale-independent as in PHP 8, so only the ASCII letters
    change case. Each `char` stands for one byte. */
module PhpStrings {

  predicate IsAsciiUpper(c: char) {
    'A' <= c <= 'Z'
  }

  predicate IsAsciiLower(c: char) {
    'a' <= c <= 'z'
  }

  /** The characters `ucwords` treats as word separators by default:
      space, tab, carriage return, newline, form feed and vertical tab. */
  predicate IsDelimiter(c: char) {
    c == ' ' || c == '\t' || c == '\r' || c == '\n' || c == '\U{0C}' || c == '\U{0B}'
  }

  /** The ASCII alphabet, in capitals (`A` to `Z`) and in small letters (`a` to `z`),
      position by position. */
  const Capitals: string := seq(26, k requires 0 <= k < 26 => ('A' as int + k) as char)
  const Smalls: string := seq(26, k requires 0 <= k < 26 => ('a' as int + k) as char)

  /** ASCII lower-casing of one byte: each capital becomes the small letter at the
      same place in the alphabet, and every other byte is kept. */
  function ToLower(c: char): (r: char)
    ensures !IsAsciiUpper(r)
    ensures IsAsciiUpper(c) <==> r != c
    ensures IsAsciiUpper(c) ==> IsAsciiLower(r)
    ensures IsAsciiUpper(c) ==> r as int - 'a' as int == c as int - 'A' as int
  {
    if IsAsciiUpper(c) then (c as int + 32) as char else c
  }

  /** ASCII upper-casing of one byte: each small letter becomes the capital at the
      same place in the alphabet, and every other byte is kept. */
  function ToUpper(c: char): (r: char)
    ensures !IsAsciiLower(r)
    ensures IsAsciiLower(c) <==> r != c
    ensures IsAsciiLower(c) ==> IsAsciiUpper(r)
    ensures IsAsciiLower(c) ==> r as int - 'A' as int == c as int - 'a' as int
  {
    if IsAsciiLower(c) then (c as int - 32) as char else c
  }

  /** The alphabets hold exactly the ASCII letters; lower-casing takes each capital
      to the small letter at its place in the alphabet and upper-casing does the
      reverse, so the two case maps undo each other on letters. */
  lemma CaseRoundTrip(c: char)
    ensures IsAsciiUpper(c) <==> c in Capitals
    ensures IsAsciiLower(c) <==> c in Smalls
    ensures forall k :: 0 <= k < |Capitals| && c == Capitals[k] ==> ToLower(c) == Smalls[k]
    ensures forall k :: 0 <= k < |Smalls| && c == Smalls[k] ==> ToUpper(c) == Capitals[k]
    ensures IsAsciiUpper(c) ==> IsAsciiLower(ToLower(c)) && ToUpper(ToLower(c)) == c
    ensures IsAsciiLower(c) ==> IsAsciiUpper(ToUpper(c)) && ToLower(ToUpper(c)) == c
  {
    if IsAsciiUpper(c) {
      assert Capitals[c as int - 'A' as int] == c;
    }
    if IsAsciiLower(c) {
      assert Smalls[c as int - 'a' as int] == c;
    }
  }

  /** Position `i` of `s` begins a word: it is the first byte, or it follows a delimiter. */
  predicate StartsWord(s: string, i: int)
    requires 0 <= i < |s|
  {
    i == 0 || IsDelimiter(s[i - 1])
  }

  /** PHP `strtolower`: every byte lower-cased, nothing else changes. */
  function StrToLower(s: string): (r: string)
    ensures |r| == |s|
    ensures forall i :: 0 <= i < |s| ==> r[i] == ToLower(s[i])
  {
    if s == [] then [] else [ToLower(s[0])] + StrToLower(s[1..])
  }

  /** The scan inside PHP `ucwords`, walking left to right: the current byte is
      upper-cased when `atWordStart` holds, and the next byte starts a word exactly
      when the current one is a delimiter. */
  function UcWordsFrom(s: string, atWordStart: bool): (r: string)
    ensures |r| == |s|
    ensures |s| > 0 ==> r[0] == (if atWordStart then ToUpper(s[0]) else s[0])
    ensures forall i :: 0 < i < |s| ==> r[i] == (if IsDelimiter(s[i - 1]) then ToUpper(s[i]) else s[i])
  {
    if s == [] then []
    else
      var rest := UcWordsFrom(s[1..], IsDelimiter(s[0]));
      [if atWordStart then ToUpper(s[0]) else s[0]] + rest
  }

  /** PHP `ucwords` with its default delimiters. */
  function UcWords(s: string): (r: string)
    ensures |r| == |s|
    ensures forall i :: 0 <= i < |s| ==> r[i] == (if StartsWord(s, i) then ToUpper(s[i]) else s[i])
  {
    UcWordsFrom(s, true)
  }

  /** `ucwords(strtolower(s))`, the capitalisation both greeting handlers apply. */
  function TitleCase(s: string): string {
    UcWords(StrToLower(s))
  }

  /** Title-casing changes letters only: it keeps the length, keeps every delimiter
      where it was (so the words are the same words), upper-cases the first byte of
      every word and lower-cases every other byte. */
  lemma {:induction false} TitleCaseShape(s: string)
    ensures |TitleCase(s)| == |s|
    ensures forall i :: 0 <= i < |s| ==> (IsDelimiter(TitleCase(s)[i]) <==> IsDelimiter(s[i]))
    ensures forall i :: 0 <= i < |s| && StartsWord(s, i) ==> TitleCase(s)[i] == ToUpper(s[i])
    ensures forall i :: 0 <= i < |s| && !StartsWord(s, i) ==> TitleCase(s)[i] == ToLower(s[i])
    ensures forall i :: 0 <= i < |s| && StartsWord(s, i) ==> !IsAsciiLower(TitleCase(s)[i])
    ensures forall i :: 0 <= i < |s| && !StartsWord(s, i) ==> !IsAsciiUpper(TitleCase(s)[i])
  {
    var low := StrToLower(s);
    forall i | 0 <= i < |s|
      ensures StartsWord(low, i) == StartsWord(s, i)
    {
      if i > 0 {
        assert low[i - 1] == ToLower(s[i - 1]);
      }
    }
  }

  /** Title-casing twice is title-casing once. */
  lemma {:induction false} TitleCaseIdempotent(s: string)
    ensures TitleCase(TitleCase(s)) == TitleCase(s)
  {
    var t := TitleCase(s);
    TitleCaseShape(s);
    TitleCaseShape(t);
    forall i | 0 <= i < |s|
      ensures TitleCase(t)[i] == t[i]
    {
      if i > 0 {
        assert IsDelimiter(t[i - 1]) <==> IsDelimiter(s[i - 1]);
      }
    }
  }

  /** Capitalising "john doe" gives "John Doe". */
  lemma TitleCaseJohnDoe()
    ensures TitleCase("john doe") == "John Doe"
  {
    TitleCaseShape("john doe");
  }
}

=== FILE: sprintf.dfy ===
/** PHP `sprintf` over the only directive the greeting templates use, `%s` (the next
    argument, as is). A format string is held already parsed: its literal runs and
    its directives, in order. */
module Sprintf {
  import opened Wrappers

  datatype Piece = Literal(text: string) | StringDirective

  type Template = seq<Piece>

  /** How many arguments the template consumes. */
  function ArgCount(t: Template): nat {
    if t == [] then 0 else (if t[0].StringDirective? then 1 else 0) + ArgCount(t[1..])
  }

  /** The template's literals copied and each `%s` replaced by the next argument; extra
      arguments are ignored, and too few make PHP throw (`None`). */
  function Render(t: Template, args: seq<string>): (r: Option<string>)
    ensures r.Some? <==> ArgCount(t) <= |args|
  {
    if t == [] then Some([])
    else
      match t[0]
      case Literal(text) =>
        (match Render(t[1..], args)
         case Some(rest) => Some(text + rest)
         case None => None)
      case StringDirective =>
        if args == [] then None
        else
          match Render(t[1..], args[1..])
          case Some(rest) => Some(args[0] + rest)
          case None => None
  }

  /** A leading literal is copied in front of the rest. */
  lemma RenderLiteral(text: string, t: Template, args: seq<string>)
    ensures Render([Literal(text)] + t, args)
         == (match Render(t, args) case Some(rest) => Some(text + rest) case None => None)
  {
    assert ([Literal(text)] + t)[1..] == t;
  }

  /** A leading `%s` takes the first argument; the rest renders with the others. */
  lemma RenderDirective(t: Template, arg: string, args: seq<string>)
    ensures Render([StringDirective] + t, [arg] + args)
         == (match Render(t, args) case Some(rest) => Some(arg + rest) case None => None)
  {
    assert ([StringDirective] + t)[1..] == t;
    assert ([arg] + args)[1..] == args;
  }

  /** Rendering two templates one after the other: the first consumes as many
      arguments as it has directives, the second renders with the rest, and the
      output is the two renderings joined. */
  lemma {:induction false} RenderConcat(t1: Template, t2: Template, args: seq<string>)
    requires ArgCount(t1) <= |args|
    ensures Render(t1, args[..ArgCount(t1)]).Some?
    ensures Render(t1 + t2, args)
         == (match Render(t2, args[ArgCount(t1)..])
             case Some(b) => Some(Render(t1, args[..ArgCount(t1)]).value + b)
             case None => None)
  {
    var n := ArgCount(t1);
    if t1 == [] {
      assert t1 + t2 == t2;
      assert args[n..] == args;
      assert Render(t1, args[..n]) == Some([]);
      if Render(t2, args).Some? {
        assert [] + Render(t2, args).value == Render(t2, args).value;
      }
    } else {
      assert (t1 + t2)[0] == t1[0];
      assert (t1 + t2)[1..] == t1[1..] + t2;
      match t1[0] {
        case Literal(text) =>
          RenderConcat(t1[1..], t2, args);
          if Render(t2, args[n..]).Some? {
            var a := Render(t1[1..], args[..n]).value;
            var b := Render(t2, args[n..]).value;
            assert text + (a + b) == (text + a) + b;
          }
        case StringDirective =>
          var m := n - 1;
          RenderConcat(t1[1..], t2, args[1..]);
          assert args[1..][m..] == args[n..];
          assert args[..n][1..] == args[1..][..m];
          assert args[..n][0] == args[0];
          if Render(t2, args[n..]).Some? {
            var a := Render(t1[1..], args[1..][..m]).value;
            var b := Render(t2, args[n..]).value;
            assert args[0] + (a + b) == (args[0] + a) + b;
          }
      }
    }
  }
}

=== FILE: use_case_result.dfy ===
/** The Success/Failure shape every use-case result shares: a success carries a
    payload, a failure carries the error (a PHP `Throwable`), and reading the wrong
    side throws. */
module UseCaseResult {
  import opened Wrappers

  /** The errors the Welcome module produces or passes through. */
  datatype Throwable =
    | InvalidArgumentException(message: string)
    | OtherThrowable(className: string, message: string)
  {
    function GetMessage(): string {
      message
    }
  }

  /** What an accessor throws when asked for the side a result does not have. */
  datatype RuntimeException = PayloadOfFailure | ErrorOfSuccess

  datatype Outcome<+P> = Succeeded(payload: P) | Failed(error: Throwable) {

    predicate IsSuccess() {
      Succeeded?
    }

    predicate IsFailure() {
      Failed?
    }

    /** The payload of a success; throws on a failure. */
    function GetPayload(): (r: Result<P, RuntimeException>)
      ensures r.Success? <==> IsSuccess()
      ensures r.Success? ==> r.value == payload
      ensures r.Failure? ==> r.error == PayloadOfFailure
    {
      match this
      case Succeeded(p) => Success(p)
      case Failed(_) => Failure(PayloadOfFailure)
    }

    /** The error of a failure; a success is taken to throw here as well, mirroring
      `getPayload` (the base class itself is not part of this model). */
    function GetError(): (r: Result<Throwable, RuntimeException>)
      ensures r.Success? <==> IsFailure()
      ensures r.Success? ==> r.value == error
      ensures r.Failure? ==> r.error == ErrorOfSuccess
    {
      match this
      case Failed(e) => Success(e)
      case Succeeded(_) => Failure(ErrorOfSuccess)
    }
  }

  /** Every result is exactly one of success or failure, and exactly one of its
      two accessors returns. */
  lemma ExactlyOneSide<P>(r: Outcome<P>)
    ensures r.IsSuccess() != r.IsFailure()
    ensures r.GetPayload().Success? != r.GetError().Success?
  {
  }
}

=== FILE: validation.dfy ===
/** The declared validation rules of a use-case input schema (`ValidationSchema::structure`
    with `ValidationSchemaRule::string()->required()/optional()->min()->max()`), and the
    two entry points every input offers: lenient `create` and strict `createOrFail`.
    Only the rules the inputs declare are modelled; the framework engine that enforces
    them, and the text of its error messages, are not. */
module Validation {
  import opened Wrappers

  /** A submitted field value: a string, or something else (an array, say). */
  datatype FieldValue = Text(text: string) | NonText

  /** Raw submitted data: field name to value; an absent key is a missing field. */
  type FormData = map<string, FieldValue>

  datatype Presence = Required | Optional

  /** One field's rule chain: `string()`, `required()` or `optional()`, `min(minLength)`
      (0 when no `min` is declared) and `max(maxLength)`. */
  datatype FieldRule = FieldRule(field: string, presence: Presence, minLength: nat, maxLength: nat)

  type Schema = seq<FieldRule>

  /** The rule a field broke. */
  datatype Violation = Missing | NotAString | TooShort(minLength: nat) | TooLong(maxLength: nat)

  datatype ValidationError = ValidationError(field: string, violation: Violation)

  /** Outcome of lenient validation: the hydrated input, or the errors. */
  datatype InputResult<+I> = Valid(input: I) | Invalid(errors: seq<ValidationError>)

  /** What strict validation throws. */
  datatype InputValidationException = InputValidationException(errors: seq<ValidationError>)

  /** What one rule chain demands of the data, stated without any evaluation order. */
  predicate Satisfies(rule: FieldRule, data: FormData) {
    if rule.field in data then
      data[rule.field].Text? && rule.minLength <= |data[rule.field].text| <= rule.maxLength
    else
      rule.presence == Optional
  }

  predicate SatisfiesAll(schema: Schema, data: FormData) {
    forall k :: 0 <= k < |schema| ==> Satisfies(schema[k], data)
  }

  /** No two rule chains name the same field. */
  predicate DistinctFields(schema: Schema) {
    forall j, k :: 0 <= j < k < |schema| ==> schema[j].field != schema[k].field
  }

  /** No field appears in two errors. */
  predicate NoFieldTwice(errors: seq<ValidationError>) {
    forall i, j :: 0 <= i < j < |errors| ==> errors[i].field != errors[j].field
  }

  /** The rules of one chain checked in order (presence, type, minimum, maximum; a
      missing field cannot also have the wrong type, so presence and type may be
      checked in either order),
      stopping at the first that fails. */
  function FirstViolation(rule: FieldRule, data: FormData): (v: Option<Violation>)
    ensures v.None? <==> Satisfies(rule, data)
    ensures v == Some(Missing) <==> rule.field !in data && rule.presence == Required
    ensures v == Some(NotAString) <==> rule.field in data && data[rule.field].NonText?
    ensures v.Some? && v.value.TooShort? ==>
      && rule.field in data && data[rule.field].Text?
      && |data[rule.field].text| < rule.minLength
      && v.value.minLength == rule.minLength
    ensures v.Some? && v.value.TooLong? ==>
      && rule.field in data && data[rule.field].Text?
      && rule.minLength <= |data[rule.field].text|
      && rule.maxLength < |data[rule.field].text|
      && v.value.maxLength == rule.maxLength
  {
    if rule.field !in data then
      if rule.presence == Required then Some(Missing) else None
    else
      match data[rule.field]
      case NonText => Some(NotAString)
      case Text(t) =>
        if |t| < rule.minLength then Some(TooShort(rule.minLength))
        else if rule.maxLength < |t| then Some(TooLong(rule.maxLength))
        else None
  }

  /** Every rule chain of the schema in declaration order; each failing field adds
      its first violation. */
  function Validate(schema: Schema, data: FormData): (errors: seq<ValidationError>)
    ensures |errors| <= |schema|
    ensures errors == [] <==> SatisfiesAll(schema, data)
  {
    if schema == [] then []
    else
      var rest := Validate(schema[1..], data);
      assert SatisfiesAll(schema, data) <==> Satisfies(schema[0], data) && SatisfiesAll(schema[1..], data) by {
        if Satisfies(schema[0], data) && SatisfiesAll(schema[1..], data) {
          forall k | 0 <= k < |schema|
            ensures Satisfies(schema[k], data)
          {
            if k > 0 {
              assert schema[k] == schema[1..][k - 1];
            }
          }
        }
      }
      match FirstViolation(schema[0], data)
      case None => rest
      case Some(v) => [ValidationError(schema[0].field, v)] + rest
  }

  /** Every reported error names a schema field and is that field's first violation. */
  lemma {:induction false} ValidateSound(schema: Schema, data: FormData, e: ValidationError)
    requires e in Validate(schema, data)
    ensures exists k :: 0 <= k < |schema| && schema[k].field == e.field && FirstViolation(schema[k], data) == Some(e.violation)
  {
    var rest := Validate(schema[1..], data);
    if e !in rest {
      assert schema[0].field == e.field && FirstViolation(schema[0], data) == Some(e.violation);
    } else {
      ValidateSound(schema[1..], data, e);
      var k :| 0 <= k < |schema[1..]| && schema[1..][k].field == e.field && FirstViolation(schema[1..][k], data) == Some(e.violation);
      assert schema[k + 1] == schema[1..][k];
    }
  }

  /** Every field that breaks its rules is reported. */
  lemma {:induction false} ValidateComplete(schema: Schema, data: FormData, k: int)
    requires 0 <= k < |schema| && !Satisfies(schema[k], data)
    ensures exists e :: e in Validate(schema, data) && e.field == schema[k].field
  {
    if k == 0 {
      var v := FirstViolation(schema[0], data);
      assert ValidationError(schema[0].field, v.value) in Validate(schema, data);
    } else {
      assert schema[k] == schema[1..][k - 1];
      ValidateComplete(schema[1..], data, k - 1);
      var e :| e in Validate(schema[1..], data) && e.field == schema[1..][k - 1].field;
      assert e in Validate(schema, data);
    }
  }

  /** With distinct field names, no field is reported twice: per field, validation
      stops at the first failing rule. */
  lemma {:induction false} ValidateOneErrorPerField(schema: Schema, data: FormData)
    requires DistinctFields(schema)
    ensures NoFieldTwice(Validate(schema, data))
  {
    if schema != [] {
      var rest := Validate(schema[1..], data);
      assert DistinctFields(schema[1..]) by {
        forall j, k | 0 <= j < k < |schema[1..]|
          ensures schema[1..][j].field != schema[1..][k].field
        {
          assert schema[1..][j] == schema[j + 1] && schema[1..][k] == schema[k + 1];
        }
      }
      ValidateOneErrorPerField(schema[1..], data);
      forall e | e in rest
        ensures e.field != schema[0].field
      {
        ValidateSound(schema[1..], data, e);
        var k :| 0 <= k < |schema[1..]| && schema[1..][k].field == e.field && FirstViolation(schema[1..][k], data) == Some(e.violation);
        assert schema[1..][k] == schema[k + 1];
      }
      var errors := Validate(schema, data);
      if FirstViolation(schema[0], data).Some? {
        var v := FirstViolation(schema[0], data).value;
        assert errors == [ValidationError(schema[0].field, v)] + rest;
        forall i, j | 0 <= i < j < |errors|
          ensures errors[i].field != errors[j].field
        {
          assert errors[j] == rest[j - 1];
          assert rest[j - 1] in rest;
          if i > 0 {
            assert errors[i] == rest[i - 1];
          } else {
            assert errors[i].field == schema[0].field;
          }
        }
      } else {
        assert errors == rest;
      }
    }
  }

  /** The validated data handed to `hydrate`: the string value of every schema field
      that was supplied. Once the schema is satisfied, every required field and every
      supplied optional field is there with its value, and nothing unsupplied is. */
  function Normalized(schema: Schema, data: FormData): (m: map<string, string>)
    ensures m.Keys <= data.Keys
    ensures SatisfiesAll(schema, data) ==>
      forall k :: 0 <= k < |schema| && (schema[k].presence == Required || schema[k].field in data)
        ==> schema[k].field in m && data[schema[k].field] == Text(m[schema[k].field])
  {
    map f | f in data && data[f].Text? && (exists k :: 0 <= k < |schema| && schema[k].field == f) :: data[f].text
  }
}

=== FILE: welcome_config.dfy ===
/** The `welcome` configuration section: its three keys, their types, defaults and
    bounds, and how a raw section resolves to a typed record. */
module WelcomeConfig {
  import opened Wrappers

  const PrefixKey: string := "greeting_prefix"
  const MaxNameLengthKey: string := "max_name_length"
  const CapitalizeKey: string := "capitalize_names"

  /** The keys the section declares; a structure refuses any other. */
  const KnownKeys: set<string> := {PrefixKey, MaxNameLengthKey, CapitalizeKey}

  const DefaultPrefix: string := "Hello"
  const DefaultMaxNameLength: int := 100
  const DefaultCapitalize: bool := true

  /** The accepted range of `max_name_length`. */
  const MaxNameLengthLow: int := 1
  const MaxNameLengthHigh: int := 500

  /** The resolved, typed section the handlers read. */
  datatype Config = Config(greetingPrefix: string, maxNameLength: int, capitalizeNames: bool) {
    /** The schema's bound on `max_name_length`. */
    predicate Valid() {
      MaxNameLengthLow <= maxNameLength <= MaxNameLengthHigh
    }
  }

  const Defaults: Config := Config(DefaultPrefix, DefaultMaxNameLength, DefaultCapitalize)

  /** A raw configuration value. */
  datatype ConfigValue = StringValue(s: string) | IntValue(i: int) | BoolValue(b: bool)

  type RawSection = map<string, ConfigValue>

  datatype ConfigError =
    | WrongType(key: string)
    | OutOfRange(key: string, value: int)
    | UnexpectedKeys(keys: set<string>)

  /** The type each declared key demands of its value. */
  predicate HasDeclaredType(key: string, v: ConfigValue) {
    && (key == PrefixKey ==> v.StringValue?)
    && (key == MaxNameLengthKey ==> v.IntValue?)
    && (key == CapitalizeKey ==> v.BoolValue?)
  }

  /** Every declared key that is present has its declared type. */
  predicate WellTyped(raw: RawSection) {
    forall k :: k in raw && k in KnownKeys ==> HasDeclaredType(k, raw[k])
  }

  /** A present integer `max_name_length` lies in 1..500. */
  predicate WithinBound(raw: RawSection) {
    MaxNameLengthKey in raw && raw[MaxNameLengthKey].IntValue? ==>
      MaxNameLengthLow <= raw[MaxNameLengthKey].i <= MaxNameLengthHigh
  }

  /** No key besides the three declared ones. */
  predicate OnlyKnownKeys(raw: RawSection) {
    raw.Keys <= KnownKeys
  }

  /** The section the schema accepts, stated directly: it has no key besides the
      three declared ones, every key present has its declared type, and
      `max_name_length`, when present, lies in 1..500. */
  predicate Acceptable(raw: RawSection) {
    OnlyKnownKeys(raw) && WellTyped(raw) && WithinBound(raw)
  }

  /** `Expect::string('Hello')`. */
  function ResolvePrefix(raw: RawSection): Result<string, ConfigError> {
    if PrefixKey !in raw then Success(DefaultPrefix)
    else match raw[PrefixKey]
      case StringValue(s) => Success(s)
      case _ => Failure(WrongType(PrefixKey))
  }

  /** `Expect::int(100)->min(1)->max(500)`. */
  function ResolveMaxNameLength(raw: RawSection): Result<int, ConfigError> {
    if MaxNameLengthKey !in raw then Success(DefaultMaxNameLength)
    else match raw[MaxNameLengthKey]
      case IntValue(i) =>
        if MaxNameLengthLow <= i <= MaxNameLengthHigh then Success(i) else Failure(OutOfRange(MaxNameLengthKey, i))
      case _ => Failure(WrongType(MaxNameLengthKey))
  }

  /** `Expect::bool(true)`. */
  function ResolveCapitalize(raw: RawSection): Result<bool, ConfigError> {
    if CapitalizeKey !in raw then Success(DefaultCapitalize)
    else match raw[CapitalizeKey]
      case BoolValue(b) => Success(b)
      case _ => Failure(WrongType(CapitalizeKey))
  }

  function ErrorOf<T>(r: Result<T, ConfigError>): seq<ConfigError> {
    if r.Failure? then [r.error] else []
  }

  /** The structure's "unexpected item" report: every key the schema does not declare. */
  function UnexpectedOf(raw: RawSection): seq<ConfigError> {
    var extra := raw.Keys - KnownKeys;
    if extra == {} then [] else [UnexpectedKeys(extra)]
  }

  /** Resolves a raw section: a missing key takes its default, a present key must
      have its type (and bound), and no other key may appear; all offending keys are
      reported. A resolved record always satisfies the bound, and keeps every
      supplied value. */
  function Resolve(raw: RawSection): (r: Result<Config, seq<ConfigError>>)
    ensures r.Success? <==> Acceptable(raw)
    ensures r.Success? ==> r.value.Valid()
    ensures r.Success? ==>
      && r.value.greetingPrefix == (if PrefixKey in raw then raw[PrefixKey].s else DefaultPrefix)
      && r.value.maxNameLength == (if MaxNameLengthKey in raw then raw[MaxNameLengthKey].i else DefaultMaxNameLength)
      && r.value.capitalizeNames == (if CapitalizeKey in raw then raw[CapitalizeKey].b else DefaultCapitalize)
    ensures r.Failure? ==> 1 <= |r.error| <= 4
    ensures r.Failure? ==> forall e :: e in r.error ==>
      && (e.UnexpectedKeys? ==> e.keys == raw.Keys - KnownKeys && e.keys != {})
      && (e.WrongType? ==> e.key in KnownKeys && e.key in raw && !HasDeclaredType(e.key, raw[e.key]))
      && (e.OutOfRange? ==>
            && e.key == MaxNameLengthKey && MaxNameLengthKey in raw
            && raw[MaxNameLengthKey] == IntValue(e.value)
            && !(MaxNameLengthLow <= e.value <= MaxNameLengthHigh))
    ensures forall k :: k in raw && k in KnownKeys && !HasDeclaredType(k, raw[k]) ==>
      r.Failure? && WrongType(k) in r.error
    ensures !WithinBound(raw) ==>
      r.Failure? && OutOfRange(MaxNameLengthKey, raw[MaxNameLengthKey].i) in r.error
    ensures !OnlyKnownKeys(raw) ==>
      r.Failure? && UnexpectedKeys(raw.Keys - KnownKeys) in r.error
  {
    var p := ResolvePrefix(raw);
    var m := ResolveMaxNameLength(raw);
    var c := ResolveCapitalize(raw);
    var extra := UnexpectedOf(raw);
    if p.Success? && m.Success? && c.Success? && extra == [] then
      Success(Config(p.value, m.value, c.value))
    else
      Failure(ErrorOf(p) + ErrorOf(m) + ErrorOf(c) + extra)
  }

  /** The values the base configuration file sets for the section. */
  const BaseSection: RawSection := map[
    PrefixKey := StringValue("Hello"),
    MaxNameLengthKey := IntValue(100),
    CapitalizeKey := BoolValue(true)
  ]

  /** The defaults lie within the bounds, an empty section resolves to them, and so
      does the base configuration, whose values equal the defaults. */
  lemma DefaultsAndBaseAgree()
    ensures Defaults.Valid()
    ensures Resolve(map[]) == Success(Defaults)
    ensures Resolve(BaseSection) == Success(Defaults)
  {
  }

  /** A key the schema does not declare makes the section fail, and the report
      names it, whatever the declared keys hold. */
  lemma UnknownKeyRefused(raw: RawSection, key: string)
    requires key in raw && key !in KnownKeys
    ensures Resolve(raw).Failure?
    ensures exists e :: e in Resolve(raw).error && e.UnexpectedKeys? && key in e.keys
  {
    assert UnexpectedKeys(raw.Keys - KnownKeys) in Resolve(raw).error;
  }

  /** Every out-of-range `max_name_length` is refused with the offending value. */
  lemma MaxNameLengthBound(raw: RawSection, n: int)
    requires MaxNameLengthKey in raw && raw[MaxNameLengthKey] == IntValue(n)
    requires n < MaxNameLengthLow || n > MaxNameLengthHigh
    ensures Resolve(raw).Failure?
    ensures OutOfRange(MaxNameLengthKey, n) in Resolve(raw).error
  {
  }
}

=== FILE: wrappers.dfy ===
/** Option and Result, the two failure-carrying datatypes the rest of the model uses
    for PHP's nullable values and for code paths that throw. */
module Wrappers {

  /** A PHP `?T`: either null (`None`) or a value. */
  datatype Option<+T> = None | Some(value: T)

  /** A call that either returns a value or throws `error`. */
  datatype Result<+R, +E> = Success(value: R) | Failure(error: E)
}
